=== FILE: README.md ===
# A verified model of a small interactive shell

This project models the pure, sequential logic of a single-file C++
interactive shell (`shell.cpp`) in Dafny and proves properties of it:

- the **tokenizer** (`Shell::parseCommand`): one left-to-right scan with an
  "inside quotes" flag, an "escape next" flag and an accumulator;
- the **dispatch decision** of one interactive cycle (`Shell::executeCommand`,
  `Shell::isBuiltinCommand`): nothing for an empty token list, otherwise
  record the raw line in the history and pick a built-in or an external
  program;
- the **history log** (`Shell::addToHistory`): a first-in-first-out log of
  at most 100 lines that skips empty lines and immediate repeats, and the
  window rule of the `history` built-in;
- the pure parts of the **built-ins**: the prompt's short path, the
  `export` split at the first `=`, `unset`, the text `echo` prints, the
  target of `cd`, and the `exit` running-flag rule.

Modules follow the components: `Lexer` (lexer.dfy), `History`
(history.dfy), `Builtins` (builtins.dfy) and `Interpreter`
(interpreter.dfy). `Wrappers` (wrappers.dfy) holds `Option`.

Each operation is paired with an independent reference, an inverse or a
general law relating it to another operation:

- The tokenizer has two projections. `Lexer.ModeAfter` tracks only the two
  flags. `Lexer.KeptChars` lists the characters that are copied into a
  token. The tokens, concatenated, are exactly `KeptChars`. A quote or
  backslash is kept only when escaped, and a blank only when escaped or
  quoted.
- Joining plain words with blanks and tokenizing the result gives the
  words back (`Lexer.ParseJoin`). So `echo`'s output re-tokenizes to its
  arguments when they are plain words (no quote, backslash or blank).
- The bounded history is compared with an unbounded one (`History.Collapse`).
  After any sequence of lines, the bounded log is exactly the newest 100
  entries of the unbounded log.
- The tokenizer breaks at blanks: a blank read outside quotes and escapes
  splits the tokens of a line into the tokens before it and the tokens
  after it (`Lexer.ParseSplit`). Tokens break nowhere else: a line with
  no such blank is one token holding every copied character, or none
  (`Lexer.NoBoundaryOneToken`).
- The `export` split has a round trip: a name without `=` and any value
  are recovered from `name=value`. For any accepted name and any value,
  `unset` undoes `export` (`Builtins.ExportThenUnset`).
- `cd` is related to itself: bare `cd` is `cd $HOME` (or `cd /`), extra
  arguments are ignored, and a repeated change to a directory the system
  reports as itself leaves the state unchanged.
- `exit` is stated for every line that tokenizes to `exit`, with or
  without an argument.

The operating system's answers are parameters: the start-up directory,
HOME, whether `chdir` succeeded and what `getcwd` returned, and the integer
`atoi` read from an argument. The environment is modelled as a
`map<string, string>`. Names and values reach `setenv` and `unsetenv`
through `c_str()`, so the model cuts them at their first NUL character
(`Builtins.CString`), as C does.

Two behaviours of `shell.cpp` worth noting:

- `export`, `unset`, `cd`, `exit` and `history` read only their first
  argument and ignore any others. They do not insist on exactly one.
- A quoted empty string (`""` or `''`) never produces a token: tokens are
  emitted only from a non-empty accumulator.

## Model

| member | source | states |
|---|---|---|
| Lexer.ParseCommand | shell.cpp:81-117 | The scanning loop yields exactly the tokens of `Parse`. No token is empty. The tokens concatenated are the copied characters of the line. |
| Lexer.ScanMode | shell.cpp:84-100 | The scanner's quote and escape flags after any prefix are those of the flag-only reference `ModeAfter`. |
| Lexer.StepKeeps | shell.cpp:90-108 | One loop iteration adds the character to the tokens-plus-accumulator text exactly when it is copied. It never emits an empty token. |
| Lexer.ScanInvariant | shell.cpp:87-109 | After any prefix, the emitted tokens followed by the accumulator spell the copied characters. No emitted token is empty. |
| Lexer.Step | shell.cpp:90-108 | One iteration moves the flags as the flag-only reference `Advance` says. A character `Copies` accepts is appended to the token being built. A token is emitted exactly when a blank is read outside quotes and escapes with a non-empty accumulator, and it is the accumulator. Nothing else changes the text. |
| Lexer.Finish | shell.cpp:111-114 | After the loop, the emitted tokens stay in front and at most one token is added. The tokens spell the emitted text followed by the accumulator, and no empty token appears. |
| Lexer.Parse | shell.cpp:81-117 | Tokens are never empty. Concatenated, they equal the copied characters of the line. |
| Lexer.ParseSplit | shell.cpp:101-108 | A blank read outside quotes and escapes is a token boundary: the tokens of `a + blank + b` are the tokens of `a` followed by the tokens of `b`. |
| Lexer.NoBoundaryOneToken | shell.cpp:87-114 | Tokens break only at such a blank: a line with none is a single token of all its copied characters, or no token when nothing is copied. |
| Lexer.ExampleQuotedBlank | shell.cpp:95-108 | `a" "b` has no boundary, because its blank is read inside quotes, and is the single token `a b`. |
| Lexer.ScanTokens | shell.cpp:87-109 | Tokens already emitted never influence the rest of the scan. |
| Lexer.ParseEmptyIff | shell.cpp:111-114 | A line yields no token if and only if none of its characters is copied. |
| Lexer.BlanksCopyNothing | shell.cpp:101-105 | Reading only blanks leaves both flags off and copies nothing. |
| Lexer.BlankLineHasNoTokens | shell.cpp:101-114 | An empty line or an all-blank line has no tokens. |
| Lexer.KeptCharsOrigin | shell.cpp:90-108 | Every copied character sits at an index of the line where it was read and copied. |
| Lexer.TokenCharOrigin | shell.cpp:87-114 | Every character of every token was copied from some index of the line. |
| Lexer.EscapeFollowsBackslash | shell.cpp:90-94 | The escape flag is set only by a backslash read while the flag was clear. |
| Lexer.QuoteInTokenIsEscaped | shell.cpp:93-100 | A `"` or `'` appears in a token only if a backslash immediately before it escaped it. |
| Lexer.BackslashInTokenIsEscaped | shell.cpp:90-94 | A backslash appears in a token only if another backslash escaped it. |
| Lexer.SpaceInTokenIsQuotedOrEscaped | shell.cpp:101-108 | A whitespace character appears in a token only if it was read inside quotes or right after an escaping backslash. |
| Lexer.PlainLineTokens | shell.cpp:93-108 | On a line without backslashes, no token holds a quote or backslash. If the line has no quotes either, no token holds whitespace. |
| Lexer.NoQuoteNoFlags | shell.cpp:93-100 | Without backslashes and quotes, neither flag is ever set. |
| Lexer.ScanAppend | shell.cpp:87-109 | Scanning `a + b` is scanning `a`, then `b` from the state reached. |
| Lexer.EscapeCopiesVerbatim | shell.cpp:90-94 | A backslash followed by any character appends that character to the current token, whatever it is. Nothing else changes. |
| Lexer.TrailingBackslashIgnored | shell.cpp:93-94 | A lone backslash at the end of the line contributes nothing to the tokens. |
| Lexer.TrailingQuoteIgnored | shell.cpp:95-100 | A quote at the end of the line, whether it closes a quote or opens one that is never closed, changes no token. |
| Lexer.ScanJoin | shell.cpp:101-108 | Plain words joined by blanks leave every word but the last emitted and the last one in the accumulator. |
| Lexer.ScanJoinLine | shell.cpp:101-105 | The same, followed by a line end, leaves all words emitted and the accumulator empty. |
| Lexer.ParseJoin | shell.cpp:81-117 | Tokenizing plain words joined by single blanks gives back the same words. |
| Lexer.ParseJoinLine | shell.cpp:81-117 | The same holds with a trailing line end. |
| Lexer.ExampleWords | shell.cpp:81-117 | `echo hello world` tokenizes to `echo`, `hello`, `world`. |
| Lexer.ExampleQuoted | shell.cpp:95-108 | `echo "hello world" foo` tokenizes to `echo`, `hello world`, `foo`. |
| Lexer.ExampleEscaped | shell.cpp:90-94 | `echo a\ b` tokenizes to `echo`, `a b`. |
| Lexer.ExampleAdjacentQuotes | shell.cpp:95-100 | `a""b` is the single token `ab`. |
| History.Add | shell.cpp:275-287 | An empty line or a repeat of the newest entry leaves the log unchanged. Otherwise the line becomes the newest entry. Below capacity it is appended. At capacity exactly the oldest entry is dropped. A log within capacity stays within capacity. |
| History.AddKeepsValid | shell.cpp:275-287 | Recording keeps the log valid: at most 100 entries, none empty, no two neighbours equal. |
| History.AddIdempotent | shell.cpp:277-279 | Recording the same line twice in a row is the same as recording it once. |
| History.Window | shell.cpp:283-286 | The newest 100 entries of a sequence, as a suffix of it. |
| History.WindowStep | shell.cpp:275-287 | Recording a line in the windowed log equals windowing the unbounded log after that line. |
| History.ReplayIsWindow | shell.cpp:275-287 | After any sequence of lines, the bounded log is exactly the newest 100 entries of the unbounded log. This means eviction is first in, first out. |
| History.CollapseDistinct | shell.cpp:277-281 | Non-empty lines that each differ from the previous one are all recorded by the unbounded log. |
| History.ReplayDistinct | shell.cpp:275-287 | Such lines leave the newest 100 of them in the log. |
| History.ReplayDistinctOverflow | shell.cpp:283-286 | With more than 100 such lines, the oldest ones are evicted and exactly the last 100 remain. |
| History.ReplaySnoc | shell.cpp:275-287 | Replaying one more line is recording it in the replayed log. |
| History.ExampleRepeats | shell.cpp:277-281 | The lines `ls ls pwd ls` leave `ls pwd ls`. |
| History.ListStart | shell.cpp:261-268 | The listing starts after index 0 exactly when a count `n` is given with `0 < n < size`. It then starts at `size - n`. |
| History.Listing | shell.cpp:270-272 | The listing prints entries from the start index to the end, in order. |
| History.ListingIsSuffix | shell.cpp:260-273 | Every listing is a suffix of the full listing with the original 1-based labels. It is shorter than the log exactly when `0 < n < size`, and then it has `n` lines. |
| History.FullListingLabels | shell.cpp:270-272 | The full listing labels entry `i` with `i + 1`. |
| History.ExampleListing | shell.cpp:260-273 | With 10 entries, `history 3` prints labels 8 to 10. `history 0` and `history 999` print all ten, labelled 1 to 10. |
| Builtins.Lookup | shell.cpp:139-143 | A word names a built-in exactly when it is one of the nine names, compared exactly and case-sensitively. The built-in found has that word. |
| Builtins.LookupText | shell.cpp:139-143 | Every built-in is found again from its own word. |
| Builtins.LastIndexOf | shell.cpp:74 | Finds the last occurrence of a character, or reports that there is none. |
| Builtins.ShortPath | shell.cpp:72-79 | A path with no `/` after index 0 is shown whole. Otherwise the shown name is the `/`-free text after the last `/`. |
| Builtins.ShortPathOfChild | shell.cpp:72-79 | For a non-empty parent and a `/`-free name, `parent/name` shows as `name`. |
| Builtins.ShortPathExamples | shell.cpp:72-79 | `/` and `/home` show whole. `/home/user` shows as `user`. |
| Builtins.IndexOf | shell.cpp:234 | Finds the first occurrence of a character, or reports that there is none. |
| Builtins.SplitExport | shell.cpp:227-242 | There is a usage error exactly when the argument is missing or has no `=`. Otherwise the name has no `=`, and `name + "=" + value` rebuilds the argument. |
| Builtins.SplitExportRoundTrip | shell.cpp:233-242 | Splitting `name=value` recovers the name and the value. The value may be empty or contain `=`. |
| Builtins.CString | shell.cpp:244 | What `c_str()` hands to C: the longest prefix without a NUL, ending where the first NUL stands. |
| Builtins.ValidVarName | shell.cpp:244 | The name `setenv` and `unsetenv` accept, read up to its first NUL: non-empty, and `find` sees no `=` in it. |
| Builtins.RunExport | shell.cpp:227-247 | A usage error happens exactly when the split fails. It succeeds exactly when the split name is accepted, and then binds the name to the value, both cut at their first NUL. Any error leaves the environment unchanged. |
| Builtins.RunUnset | shell.cpp:249-258 | A usage error happens exactly when the argument is missing. It succeeds exactly when the name is accepted, and then removes exactly that name, cut at its first NUL, and keeps the others. Any error leaves the environment unchanged. |
| Builtins.ExportThenUnset | shell.cpp:227-258 | For any accepted name without `=` and any value, `export NAME=value` binds the name to the value (as C reads them), and a later `unset NAME` leaves the environment as it was without that name. |
| Builtins.ExportThenUnsetPlain | shell.cpp:227-258 | For a name and value without NUL, exactly the typed name is bound to exactly the typed value, then removed. |
| Builtins.ExportNulName | shell.cpp:240-246 | `export A<NUL>B=v` binds `A` to `v`. A name starting with NUL reads as empty and is refused. |
| Builtins.ExportEmptyName | shell.cpp:240-246 | `export =value` splits, but the empty name is refused, and the environment is unchanged. |
| Builtins.ExportWithoutEquals | shell.cpp:233-239 | `export BADFORMAT` is a usage error and leaves the environment unchanged. |
| Builtins.RunEcho | shell.cpp:211-217 | The printed text is the arguments after the command name, joined by single blanks, followed by a line end. |
| Builtins.EchoReparses | shell.cpp:211-217 | Tokenizing the output of `echo` on plain words gives those words back. |
| Builtins.CdTarget | shell.cpp:174-183 | The `cd` target is the first argument. Without one it is HOME, or `/` when HOME is unset. |
| Interpreter.Init | shell.cpp:31-40 | A new shell is running with an empty history, in the reported start-up directory, or in `/` when none was reported. |
| Interpreter.Execute | shell.cpp:119-143 | An empty token list changes nothing and dispatches nothing. Otherwise the raw line goes through `History.Add`. The result is a built-in exactly when the first token is one of the nine names, and an external command with all tokens otherwise. |
| Interpreter.ExecuteKeepsValid | shell.cpp:119-137 | A cycle keeps the history valid. It does not touch the working directory or the running flag. |
| Interpreter.DispatchedLineIsNewest | shell.cpp:119-128 | After any cycle that dispatches something, the raw line is the newest history entry. |
| Interpreter.BlankLineIsNoOp | shell.cpp:120-124 | An empty or all-blank line leaves the state unchanged and dispatches nothing. |
| Interpreter.RepeatedLineRecordedOnce | shell.cpp:126-127 | Typing a line twice in a row leaves the same state as typing it once. |
| Interpreter.RunExit | shell.cpp:146-154 | With an argument, the process terminates with the parsed code. Without one, the running flag is cleared and nothing else changes. |
| Interpreter.RunCd | shell.cpp:174-195 | A successful change whose new directory can be read caches that directory. Otherwise the cached directory stays. A refused change leaves the state unchanged. The history and running flag never change. |
| Interpreter.CdArguments | shell.cpp:174-183 | Bare `cd` behaves as `cd $HOME`, or as `cd /` when HOME is unset. Arguments after the first are ignored. |
| Interpreter.CdTwice | shell.cpp:185-190 | Changing to a directory the system enters and reports as itself caches it. Changing to it again leaves the state unchanged. |
| Interpreter.CdExamples | shell.cpp:174-195 | Bare `cd` with HOME=/tmp caches /tmp. `cd /nonexistent-path` leaves the state unchanged. |
| Interpreter.RunHistory | shell.cpp:260-273 | Without an argument, `history` prints the full listing. Otherwise it prints a suffix with the original labels. The suffix is shorter than the log exactly when `0 < n < size`, and then it has exactly `n` lines. |
| Interpreter.ExitLineStops | shell.cpp:119-154 | Any line that tokenizes to the single word `exit` dispatches the built-in with that argument, records the line and clears the running flag. Nothing else changes. |
| Interpreter.ExitWithCodeTerminates | shell.cpp:119-151 | Any line whose first token is `exit` and that has an argument is recorded, dispatches the built-in, and ends the process with the parsed code. |
| Interpreter.ExampleExit | shell.cpp:146-154 | Typing `exit` itself stops the loop. |

## Left out

- Launching external programs (`fork`, `execvp`, `waitpid`), the "command not found" message with status 127, and the reporting of a signal number. These are operating-system process management. The model stops at the `External(args)` decision.
- The SIGINT handler and its prompt reprint. They are asynchronous signal handling.
- The read loop, `getline`, end-of-input handling, prompt printing and the help text. These are terminal I/O. The loop's own skip of an empty input line is redundant with the dispatch rule (`Interpreter.BlankLineIsNoOp`).
- `pwd` and `env`. They only print the cached directory and the process environment, in an order the OS chooses.
- `std::atoi` and the process exit of `exit <n>`. The parsed integer is a parameter. The process exit is the `Terminate` outcome.
- `chdir`, `getcwd`, `getenv`, `setenv` and `unsetenv` are not called. Their answers are parameters or a map. The only refusal of `setenv`/`unsetenv` modelled is the one POSIX specifies for a name that is empty or contains `=`. Other refusals, such as out-of-memory, are not modelled.
- The answer of `chdir` and `getcwd` is a function of the target string alone. It does not depend on the current directory or on changes to the file system between calls. So a relative target such as `..` resolves the same way every time, and `Interpreter.CdTwice` is stated only for a directory the system reports as itself.
- The HOME that bare `cd` reads is a parameter of `Interpreter.RunCd` and `Builtins.CdTarget`. It is not linked to the environment map that `Builtins.RunExport` and `Builtins.RunUnset` change. So `export HOME=/tmp` followed by `cd` going to `/tmp` is not modelled.
- Characters are Dafny `char`s, not C `char` bytes. `Lexer.IsSpace` is the C-locale set (blank, tab, line feed, vertical tab, form feed, carriage return). The behaviour of `std::isspace` on negative `char` values, which are bytes above 127, is not modelled.

=== FILE: builtins.dfy ===
/** The pure parts of the shell's built-in commands: recognising their
    names, the short path shown in the prompt, the `export` and `unset`
    argument rules with their effect on the environment, the text `echo`
    prints, and the directory `cd` aims for. */
module Builtins {
  import opened Wrappers
  import Lexer

  // ---------------------------------------------------------------------
  // Names

  /** The nine built-in commands. */
  datatype Name = Exit | Cd | Pwd | Help | Echo | Env | Export | Unset | History

  /** The word that invokes each built-in. */
  function Text(n: Name): string {
    match n
    case Exit => "exit"
    case Cd => "cd"
    case Pwd => "pwd"
    case Help => "help"
    case Echo => "echo"
    case Env => "env"
    case Export => "export"
    case Unset => "unset"
    case History => "history"
  }

  /** The words recognised as built-ins. */
  const Names: set<string> := {"exit", "cd", "pwd", "help", "echo", "env", "export", "unset", "history"}

  /** The built-in a command word names, if any: an exact, case-sensitive
      match against the nine names. */
  function Lookup(word: string): (r: Option<Name>)
    ensures r.Some? <==> word in Names
    ensures r.Some? ==> Text(r.value) == word
  {
    if word == "exit" then Some(Exit)
    else if word == "cd" then Some(Cd)
    else if word == "pwd" then Some(Pwd)
    else if word == "help" then Some(Help)
    else if word == "echo" then Some(Echo)
    else if word == "env" then Some(Env)
    else if word == "export" then Some(Export)
    else if word == "unset" then Some(Unset)
    else if word == "history" then Some(History)
    else None
  }

  /** Each built-in is found again from its own word, so distinct built-ins
      have distinct words. */
  lemma LookupText(n: Name)
    ensures Lookup(Text(n)) == Some(n)
    ensures Text(n) in Names
  {
  }

  // ---------------------------------------------------------------------
  // The prompt's directory name

  /** The index of the last occurrence of `c` in `s`, if any. */
  function LastIndexOf(s: string, c: char): (r: Option<nat>)
    ensures r.None? <==> (forall k :: 0 <= k < |s| ==> s[k] != c)
    ensures r.Some? ==> r.value < |s| && s[r.value] == c
    ensures r.Some? ==> forall k :: r.value < k < |s| ==> s[k] != c
    decreases |s|
  {
    if s == [] then None
    else if s[|s| - 1] == c then Some(|s| - 1)
    else LastIndexOf(s[..|s| - 1], c)
  }

  /** The directory name shown in the prompt: the text after the last `/`,
      or the whole path when it has no `/` or only one at index 0. */
  function ShortPath(cwd: string): (r: string)
    ensures (forall k :: 0 < k < |cwd| ==> cwd[k] != '/') ==> r == cwd
    ensures (exists k :: 0 < k < |cwd| && cwd[k] == '/') ==>
      && |r| + 1 < |cwd|
      && r == cwd[|cwd| - |r|..]
      && cwd[|cwd| - |r| - 1] == '/'
      && (forall k :: 0 <= k < |r| ==> r[k] != '/')
  {
    var last := LastIndexOf(cwd, '/');
    if last.None? || last.value == 0 then
      NoInnerSlash(cwd);
      cwd
    else
      LastComponent(cwd, last.value);
      cwd[last.value + 1..]
  }

  /** When the last `/` is missing or at index 0, there is none after it. */
  lemma NoInnerSlash(cwd: string)
    requires LastIndexOf(cwd, '/').None? || LastIndexOf(cwd, '/').value == 0
    ensures forall k :: 0 < k < |cwd| ==> cwd[k] != '/'
  {
  }

  /** The text after the last `/` is a `/`-free suffix preceded by `/`. */
  lemma LastComponent(cwd: string, i: nat)
    requires LastIndexOf(cwd, '/') == Some(i) && i > 0
    ensures exists k :: 0 < k < |cwd| && cwd[k] == '/'
    ensures |cwd[i + 1..]| + 1 < |cwd|
    ensures cwd[|cwd| - |cwd[i + 1..]| - 1] == '/'
    ensures forall k :: i < k < |cwd| ==> cwd[k] != '/'
  {
    assert cwd[i] == '/';
  }

  /** Below a non-empty parent, the prompt shows the last component. */
  lemma ShortPathOfChild(parent: string, name: string)
    requires parent != []
    requires forall k :: 0 <= k < |name| ==> name[k] != '/'
    ensures ShortPath(parent + "/" + name) == name
  {
    var p := parent + "/" + name;
    assert p[|parent|] == '/';
    assert p[|p| - |name|..] == name;
  }

  /** The root and top-level directories are shown whole. */
  lemma ShortPathExamples()
    ensures ShortPath("/") == "/"
    ensures ShortPath("/home") == "/home"
    ensures ShortPath("/home/user") == "user"
  {
    ShortPathOfChild("/home", "user");
    assert "/home" + "/" + "user" == "/home/user";
  }

  // ---------------------------------------------------------------------
  // export and unset

  /** The index of the first occurrence of `c` in `s`, if any. */
  function IndexOf(s: string, c: char): (r: Option<nat>)
    ensures r.None? <==> (forall k :: 0 <= k < |s| ==> s[k] != c)
    ensures r.Some? ==> r.value < |s| && s[r.value] == c
    ensures r.Some? ==> forall k :: 0 <= k < r.value ==> s[k] != c
    decreases |s|
  {
    if s == [] then None
    else if s[0] == c then Some(0)
    else match IndexOf(s[1..], c)
      case None => None
      case Some(i) => Some(i + 1)
  }

  /** A variable assignment `NAME=value`. */
  datatype Assignment = Assignment(name: string, value: string)

  /** The assignment `export` reads from its first argument, split at the
      first `=`; None is the usage error (no argument, or no `=`). */
  function SplitExport(args: seq<string>): (r: Option<Assignment>)
    ensures r.None? <==> (|args| < 2 || forall k :: 0 <= k < |args[1]| ==> args[1][k] != '=')
    ensures r.Some? ==> r.value.name + "=" + r.value.value == args[1]
    ensures r.Some? ==> forall k :: 0 <= k < |r.value.name| ==> r.value.name[k] != '='
  {
    if |args| < 2 then None
    else
      var assignment := args[1];
      match IndexOf(assignment, '=')
      case None => None
      case Some(i) =>
        assert assignment[..i] + "=" + assignment[i + 1..] == assignment;
        Some(Assignment(assignment[..i], assignment[i + 1..]))
  }

  /** Splitting recovers any name without `=` and any value, even one that
      is empty or holds `=` itself. */
  lemma SplitExportRoundTrip(args: seq<string>, name: string, value: string)
    requires |args| >= 2 && args[1] == name + "=" + value
    requires forall k :: 0 <= k < |name| ==> name[k] != '='
    ensures SplitExport(args) == Some(Assignment(name, value))
  {
    var a := args[1];
    assert a[|name|] == '=';
    var r := SplitExport(args);
    var i := |r.value.name|;
    assert a[i] == '=';
    assert i <= |name|;
    assert i >= |name|;
    assert r.value.name == a[..i] == name;
    assert r.value.value == a[i + 1..] == value;
  }

  /** The process environment, as bindings from names to values. */
  type Environment = map<string, string>

  /** How an environment built-in ended. */
  datatype Status = Done | UsageError | OsError

  /** The text a C library function sees through `c_str()`: everything
      before the first NUL character. */
  function CString(s: string): (r: string)
    ensures |r| <= |s| && r == s[..|r|]
    ensures forall k :: 0 <= k < |r| ==> r[k] != '\0'
    ensures |r| < |s| ==> s[|r|] == '\0'
  {
    match IndexOf(s, '\0')
    case None => s
    case Some(i) => s[..i]
  }

  /** Text without a NUL reaches C whole. */
  lemma CStringWhole(s: string)
    requires forall k :: 0 <= k < |s| ==> s[k] != '\0'
    ensures CString(s) == s
  {
  }

  /** POSIX `setenv` and `unsetenv` refuse a name that is empty or holds
      `=`, as they read it: up to its first NUL. */
  predicate ValidVarName(name: string): (ok: bool)
    ensures ok <==> CString(name) != [] && IndexOf(CString(name), '=').None?
  {
    var c := CString(name);
    c != [] && forall k :: 0 <= k < |c| ==> c[k] != '='
  }

  /** `export NAME=value`: a usage error leaves the environment alone; a
      name the environment refuses is an OS error; otherwise the name, as
      C reads it, is bound to the value, as C reads it, replacing any
      earlier binding. */
  function RunExport(env: Environment, args: seq<string>): (r: (Environment, Status))
    ensures r.1 == UsageError <==> SplitExport(args).None?
    ensures r.1 == Done <==> SplitExport(args).Some? && ValidVarName(SplitExport(args).value.name)
    ensures r.1 != Done ==> r.0 == env
    ensures r.1 == Done ==> exists a :: SplitExport(args) == Some(a) && r.0 == env[CString(a.name) := CString(a.value)]
    ensures r.1 == Done ==> CString(SplitExport(args).value.name) in r.0
  {
    match SplitExport(args)
    case None => (env, UsageError)
    case Some(a) =>
      if ValidVarName(a.name) then (env[CString(a.name) := CString(a.value)], Done) else (env, OsError)
  }

  /** `unset NAME`: a usage error without an argument; otherwise the name,
      as C reads it, is removed, and removing an absent name is not an
      error. */
  function RunUnset(env: Environment, args: seq<string>): (r: (Environment, Status))
    ensures r.1 == UsageError <==> |args| < 2
    ensures r.1 == Done <==> |args| >= 2 && ValidVarName(args[1])
    ensures r.1 != Done ==> r.0 == env
    ensures r.1 == Done ==> CString(args[1]) !in r.0
    ensures r.1 == Done ==> forall v :: v in env && v != CString(args[1]) ==> v in r.0 && r.0[v] == env[v]
    ensures r.1 == Done ==> r.0.Keys == env.Keys - {CString(args[1])}
  {
    if |args| < 2 then (env, UsageError)
    else if ValidVarName(args[1]) then (env - {CString(args[1])}, Done)
    else (env, OsError)
  }

  /** `export NAME=value` with a name `setenv` accepts, and without `=` so
      that the split finds it again, binds the name to the value; a later
      `unset NAME` removes it and keeps every other binding, whatever the
      value was. */
  lemma ExportThenUnset(env: Environment, name: string, value: string)
    requires ValidVarName(name) && IndexOf(name, '=').None?
    ensures RunExport(env, ["export", name + "=" + value]) == (env[CString(name) := CString(value)], Done)
    ensures RunUnset(env[CString(name) := CString(value)], ["unset", name]) == (env - {CString(name)}, Done)
  {
    var c := CString(name);
    SplitExportRoundTrip(["export", name + "=" + value], name, value);
    assert env[c := CString(value)] - {c} == env - {c};
  }

  /** The same for names and values without NUL characters: exactly the
      typed name and value are bound, then removed. */
  lemma ExportThenUnsetPlain(env: Environment, name: string, value: string)
    requires ValidVarName(name) && IndexOf(name, '=').None?
    requires forall k :: 0 <= k < |name| ==> name[k] != '\0'
    requires forall k :: 0 <= k < |value| ==> value[k] != '\0'
    ensures RunExport(env, ["export", name + "=" + value]) == (env[name := value], Done)
    ensures RunUnset(env[name := value], ["unset", name]) == (env - {name}, Done)
  {
    CStringWhole(name);
    CStringWhole(value);
    ExportThenUnset(env, name, value);
  }

  /** A name with a NUL inside binds only its part before the NUL; a name
      starting with NUL reads as empty and is refused. */
  lemma ExportNulName(env: Environment)
    ensures RunExport(env, ["export", "A\0B=v"]) == (env["A" := "v"], Done)
    ensures !ValidVarName("\0A")
  {
    assert "A\0B" + "=" + "v" == "A\0B=v";
    assert CString("A\0B") == "A";
    assert CString("v") == "v";
    SplitExportRoundTrip(["export", "A\0B=v"], "A\0B", "v");
    assert CString("\0A") == [];
  }

  /** `export =value` splits, but `setenv` refuses the empty name, so the
      environment is unchanged. */
  lemma ExportEmptyName(env: Environment, value: string)
    ensures RunExport(env, ["export", "=" + value]) == (env, OsError)
  {
    SplitExportRoundTrip(["export", "=" + value], [], value);
    assert [] + "=" + value == "=" + value;
  }

  /** `export BADFORMAT` is a usage error and changes nothing. */
  lemma ExportWithoutEquals(env: Environment)
    ensures RunExport(env, ["export", "BADFORMAT"]) == (env, UsageError)
  {
    assert forall k :: 0 <= k < |"BADFORMAT"| ==> "BADFORMAT"[k] != '=';
  }

  // ---------------------------------------------------------------------
  // echo

  /** The words `echo` prints: its arguments after the command name. */
  function EchoWords(args: seq<string>): seq<string> {
    if |args| <= 1 then [] else args[1..]
  }

  /** `echo`: the arguments after the command name, one blank between
      each two, then a line end. */
  method RunEcho(args: seq<string>) returns (out: string)
    ensures out == Lexer.Join(EchoWords(args)) + "\n"
  {
    out := "";
    var i := 1;
    while i < |args|
      invariant 1 <= i <= |args| || (|args| <= 1 && i == 1)
      invariant out == Lexer.Join(if i <= 1 then [] else args[1..i])
    {
      if i > 1 {
        out := out + " ";
      }
      out := out + args[i];
      assert args[1..i + 1][..i - 1] == args[1..i];
      i := i + 1;
    }
    if |args| > 1 {
      assert args[1..i] == args[1..];
    }
    out := out + "\n";
  }

  /** Echoing plain words and tokenizing the output gives the words back. */
  lemma EchoReparses(args: seq<string>)
    requires forall k :: 1 <= k < |args| ==> Lexer.PlainWord(args[k])
    ensures Lexer.Parse(Lexer.Join(EchoWords(args)) + "\n") == EchoWords(args)
  {
    var ws := EchoWords(args);
    assert forall k :: 0 <= k < |ws| ==> ws[k] == args[k + 1];
    Lexer.ParseJoinLine(ws);
  }

  // ---------------------------------------------------------------------
  // cd

  /** The directory `cd` changes to: its argument, or else HOME, or else
      the root. */
  function CdTarget(args: seq<string>, home: Option<string>): (r: string)
    requires |args| >= 1
    ensures |args| >= 2 ==> r == args[1]
    ensures |args| == 1 && home.Some? ==> r == home.value
    ensures |args| == 1 && home.None? ==> r == "/"
  {
    if |args| == 1 then home.GetOr("/") else args[1]
  }
}

=== FILE: history.dfy ===
/** The command history of the shell (`Shell::addToHistory` and the window
    rule of `Shell::executeHistory`).

    The log holds at most `Capacity` lines, oldest first. A line is recorded
    unless it is empty or equal to the newest entry; when the log overflows,
    the oldest entry is dropped.

    The reference for the bounded log is the unbounded one, `Collapse`,
    which only skips empty lines and immediate repeats: the bounded log
    after any sequence of lines is exactly the last `Capacity` entries of
    the unbounded one (`ReplayIsWindow`). */
module History {
  import opened Wrappers

  /** The largest number of entries kept. */
  const Capacity: nat := 100

  /** The invariant of the log: bounded, no empty entry, no entry equal to
      the one before it. */
  predicate Valid(h: seq<string>) {
    && |h| <= Capacity
    && (forall i :: 0 <= i < |h| ==> h[i] != [])
    && (forall i :: 0 < i < |h| ==> h[i - 1] != h[i])
  }

  /** Whether `Add` leaves the log as it is. */
  predicate Skips(h: seq<string>, cmd: string) {
    cmd == [] || (h != [] && h[|h| - 1] == cmd)
  }

  /** Records `cmd`: append, then drop the oldest entry if the log grew past
      its capacity. */
  function Add(h: seq<string>, cmd: string): (r: seq<string>)
    ensures Skips(h, cmd) ==> r == h
    ensures !Skips(h, cmd) ==> r != [] && r[|r| - 1] == cmd
    ensures !Skips(h, cmd) && |h| < Capacity ==> r == h + [cmd]
    ensures !Skips(h, cmd) && |h| >= Capacity ==> r == h[1..] + [cmd]
    ensures |h| <= Capacity ==> |r| <= Capacity
  {
    if Skips(h, cmd) then h
    else
      var pushed := h + [cmd];
      if |pushed| > Capacity then pushed[1..] else pushed
  }

  /** After recording a non-empty line, it is the newest entry. */
  lemma AddNonEmpty(h: seq<string>, cmd: string)
    requires cmd != []
    ensures Add(h, cmd) != [] && Add(h, cmd)[|Add(h, cmd)| - 1] == cmd
  {
  }

  /** Recording keeps the log valid. */
  lemma AddKeepsValid(h: seq<string>, cmd: string)
    requires Valid(h)
    ensures Valid(Add(h, cmd))
  {
    var r := Add(h, cmd);
    if !Skips(h, cmd) {
      forall i | 0 < i < |r|
        ensures r[i - 1] != r[i]
      {
        if i < |r| - 1 {
          if |h| < Capacity {
            assert r[i - 1] == h[i - 1] && r[i] == h[i];
          } else {
            assert r[i - 1] == h[i] && r[i] == h[i + 1];
          }
        }
      }
    }
  }

  /** Recording the same line twice in a row is recording it once. */
  lemma AddIdempotent(h: seq<string>, cmd: string)
    ensures Add(Add(h, cmd), cmd) == Add(h, cmd)
  {
  }

  // ---------------------------------------------------------------------
  // The bounded log against the unbounded one

  /** The log after recording `cmds`, one after the other, from empty. */
  function Replay(cmds: seq<string>): seq<string>
    decreases |cmds|
  {
    if cmds == [] then [] else Add(Replay(cmds[..|cmds| - 1]), cmds[|cmds| - 1])
  }

  /** The unbounded log: every recorded line, never evicting. */
  function Collapse(cmds: seq<string>): seq<string>
    decreases |cmds|
  {
    if cmds == [] then []
    else
      var before := Collapse(cmds[..|cmds| - 1]);
      var cmd := cmds[|cmds| - 1];
      if cmd == [] || (before != [] && before[|before| - 1] == cmd) then before else before + [cmd]
  }

  /** The newest `Capacity` entries of `s`. */
  function Window(s: seq<string>): (r: seq<string>)
    ensures |r| == if |s| <= Capacity then |s| else Capacity
    ensures r == s[|s| - |r|..]
  {
    if |s| <= Capacity then s else s[|s| - Capacity..]
  }

  /** One more line: the window of the unbounded log follows `Add`. */
  lemma WindowStep(c: seq<string>, cmd: string)
    ensures Add(Window(c), cmd) ==
      Window(if cmd == [] || (c != [] && c[|c| - 1] == cmd) then c else c + [cmd])
  {
    var w := Window(c);
    if c != [] {
      assert w[|w| - 1] == c[|c| - 1];
    }
    if !(cmd == [] || (c != [] && c[|c| - 1] == cmd)) {
      var c' := c + [cmd];
      if |c| >= Capacity {
        assert Window(c') == c'[|c'| - Capacity..];
        assert (w + [cmd])[1..] == c'[|c'| - Capacity..];
      }
    }
  }

  /** The bounded log after any sequence of lines is the newest `Capacity`
      entries of the unbounded log: eviction is first in, first out. */
  lemma {:induction false} ReplayIsWindow(cmds: seq<string>)
    ensures Replay(cmds) == Window(Collapse(cmds))
    decreases |cmds|
  {
    if cmds != [] {
      ReplayIsWindow(cmds[..|cmds| - 1]);
      WindowStep(Collapse(cmds[..|cmds| - 1]), cmds[|cmds| - 1]);
    }
  }

  /** Lines that are non-empty and differ from their predecessor are all
      recorded by the unbounded log. */
  lemma {:induction false} CollapseDistinct(cmds: seq<string>)
    requires forall i :: 0 <= i < |cmds| ==> cmds[i] != []
    requires forall i :: 0 < i < |cmds| ==> cmds[i - 1] != cmds[i]
    ensures Collapse(cmds) == cmds
    decreases |cmds|
  {
    if cmds != [] {
      CollapseDistinct(cmds[..|cmds| - 1]);
      assert cmds[..|cmds| - 1] + [cmds[|cmds| - 1]] == cmds;
    }
  }

  /** So such lines leave exactly the newest `Capacity` of them. */
  lemma ReplayDistinct(cmds: seq<string>)
    requires forall i :: 0 <= i < |cmds| ==> cmds[i] != []
    requires forall i :: 0 < i < |cmds| ==> cmds[i - 1] != cmds[i]
    ensures Replay(cmds) == Window(cmds)
  {
    ReplayIsWindow(cmds);
    CollapseDistinct(cmds);
  }

  /** Of more than `Capacity` such lines, the first ones are evicted. */
  lemma ReplayDistinctOverflow(cmds: seq<string>)
    requires |cmds| > Capacity
    requires forall i :: 0 <= i < |cmds| ==> cmds[i] != []
    requires forall i :: 0 < i < |cmds| ==> cmds[i - 1] != cmds[i]
    ensures Replay(cmds) == cmds[|cmds| - Capacity..]
  {
    ReplayDistinct(cmds);
  }

  /** Recording one more line. */
  lemma ReplaySnoc(cmds: seq<string>, cmd: string)
    ensures Replay(cmds + [cmd]) == Add(Replay(cmds), cmd)
  {
    assert (cmds + [cmd])[..|cmds|] == cmds;
  }

  /** The log after `ls ls pwd`. */
  lemma ReplayLsLsPwd()
    ensures Replay(["ls", "ls", "pwd"]) == ["ls", "pwd"]
  {
    ReplaySnoc([], "ls");
    assert Replay(["ls"]) == ["ls"];
    ReplaySnoc(["ls"], "ls");
    assert Replay(["ls", "ls"]) == ["ls"];
    ReplaySnoc(["ls", "ls"], "pwd");
    assert "pwd" != "ls";
  }

  /** Repeated lines are recorded once: `ls ls pwd ls` leaves `ls pwd ls`. */
  lemma ExampleRepeats()
    ensures Replay(["ls", "ls", "pwd", "ls"]) == ["ls", "pwd", "ls"]
  {
    ReplayLsLsPwd();
    ReplaySnoc(["ls", "ls", "pwd"], "ls");
    assert ["ls", "ls", "pwd"] + ["ls"] == ["ls", "ls", "pwd", "ls"];
    assert "pwd" != "ls";
    assert Add(["ls", "pwd"], "ls") == ["ls", "pwd", "ls"];
  }

  // ---------------------------------------------------------------------
  // Listing

  /** One printed line of `history`: the 1-based position and the entry. */
  datatype Entry = Entry(number: nat, line: string)

  /** The index of the first entry `history` prints, given the size of the
      log and the count argument (None when no argument is given). */
  function ListStart(size: nat, n: Option<int>): (start: nat)
    ensures start <= size
    ensures start > 0 <==> (n.Some? && 0 < n.value < size)
    ensures start > 0 ==> size - start == n.value
  {
    match n
    case Some(k) => if 0 < k < size then size - k else 0
    case None => 0
  }

  /** The printed lines of `history`, with their original labels. */
  function Listing(h: seq<string>, n: Option<int>): (r: seq<Entry>)
    ensures |r| == |h| - ListStart(|h|, n)
    ensures forall k :: 0 <= k < |r| ==> r[k].line == h[ListStart(|h|, n) + k]
  {
    var start := ListStart(|h|, n);
    seq(|h| - start, k requires 0 <= k < |h| - start => Entry(start + k + 1, h[start + k]))
  }

  /** A listing is a suffix of the full listing, labels included; it is
      shorter than the log exactly when the count lies strictly between 0
      and the size of the log, and then it holds that many lines. */
  lemma ListingIsSuffix(h: seq<string>, n: Option<int>)
    ensures Listing(h, n) == Listing(h, None)[|h| - |Listing(h, n)|..]
    ensures |Listing(h, n)| < |h| <==> (n.Some? && 0 < n.value < |h|)
    ensures n.Some? && 0 < n.value < |h| ==> |Listing(h, n)| == n.value
  {
  }

  /** The full listing labels entry `i` with `i + 1`. */
  lemma FullListingLabels(h: seq<string>)
    ensures forall i :: 0 <= i < |h| ==> Listing(h, None)[i] == Entry(i + 1, h[i])
  {
  }

  /** With ten entries, `history 3` prints entries 8 to 10; `history 0` and
      `history 999` print all ten. */
  lemma ExampleListing(h: seq<string>)
    requires |h| == 10
    ensures |Listing(h, Some(3))| == 3
    ensures forall k :: 0 <= k < 3 ==> Listing(h, Some(3))[k].number == 8 + k
    ensures Listing(h, Some(0)) == Listing(h, None)
    ensures Listing(h, Some(999)) == Listing(h, None)
    ensures forall k :: 0 <= k < 10 ==> Listing(h, Some(999))[k].number == k + 1
  {
  }
}

=== FILE: interpreter.dfy ===
/** The shell's own state and one interactive cycle (`Shell::executeCommand`
    and the state changes of the `exit`, `cd` and `history` built-ins).

    The state is a record of the cached working directory, the running
    flag and the history log. A cycle tokenizes the line; an empty token
    list does nothing at all, otherwise the raw line is recorded and the
    first token decides between a built-in and an external program. What
    the operating system answers (the current directory, HOME, whether a
    directory change succeeded, the integer `atoi` makes of an argument) is
    passed in as a parameter. */
module Interpreter {
  import opened Wrappers
  import Lexer
  import History
  import Builtins

  /** The interpreter state. */
  datatype Shell = Shell(cwd: string, running: bool, history: seq<string>)

  /** A new shell: running, no history, in the directory the operating
      system reported at start-up, or in the root when it reported none. */
  function Init(startDir: Option<string>): (sh: Shell)
    ensures sh.running && sh.history == []
    ensures startDir.Some? ==> sh.cwd == startDir.value
    ensures startDir.None? ==> sh.cwd == "/"
  {
    Shell(startDir.GetOr("/"), true, [])
  }

  /** What a cycle does with the line after recording it. */
  datatype Dispatch =
    | NoOp
    | Builtin(name: Builtins.Name, args: seq<string>)
    | External(args: seq<string>)

  /** The state after a cycle and what it dispatched. */
  datatype Cycle = Cycle(shell: Shell, action: Dispatch)

  /** One interactive cycle on `line`. */
  function Execute(sh: Shell, line: string): (r: Cycle)
    ensures Lexer.Parse(line) == [] ==> r == Cycle(sh, NoOp)
    ensures Lexer.Parse(line) != [] ==> r.shell == sh.(history := History.Add(sh.history, line))
    ensures r.action.Builtin? <==> (Lexer.Parse(line) != [] && Lexer.Parse(line)[0] in Builtins.Names)
    ensures r.action.External? <==> (Lexer.Parse(line) != [] && Lexer.Parse(line)[0] !in Builtins.Names)
    ensures r.action.Builtin? ==> r.action.args == Lexer.Parse(line) && Builtins.Text(r.action.name) == r.action.args[0]
    ensures r.action.External? ==> r.action.args == Lexer.Parse(line)
  {
    var args := Lexer.Parse(line);
    if args == [] then Cycle(sh, NoOp)
    else
      var recorded := sh.(history := History.Add(sh.history, line));
      match Builtins.Lookup(args[0])
      case Some(name) => Cycle(recorded, Builtin(name, args))
      case None => Cycle(recorded, External(args))
  }

  /** A cycle keeps the history valid and touches nothing but the history. */
  lemma ExecuteKeepsValid(sh: Shell, line: string)
    requires History.Valid(sh.history)
    ensures History.Valid(Execute(sh, line).shell.history)
    ensures Execute(sh, line).shell.cwd == sh.cwd
    ensures Execute(sh, line).shell.running == sh.running
  {
    History.AddKeepsValid(sh.history, line);
  }

  /** A line that dispatches something becomes the newest history entry. */
  lemma DispatchedLineIsNewest(sh: Shell, line: string)
    requires Execute(sh, line).action != NoOp
    ensures var h := Execute(sh, line).shell.history; h != [] && h[|h| - 1] == line
  {
    assert Lexer.Parse(line) != [];
    Lexer.BlankLineHasNoTokens([]);
    assert line != [];
    History.AddNonEmpty(sh.history, line);
  }

  /** An empty or blank line changes nothing and dispatches nothing. */
  lemma BlankLineIsNoOp(sh: Shell, line: string)
    requires forall k :: 0 <= k < |line| ==> Lexer.IsSpace(line[k])
    ensures Execute(sh, line) == Cycle(sh, NoOp)
  {
    Lexer.BlankLineHasNoTokens(line);
  }

  /** A line typed twice in a row leaves the history as typing it once. */
  lemma RepeatedLineRecordedOnce(sh: Shell, line: string)
    ensures Execute(Execute(sh, line).shell, line).shell == Execute(sh, line).shell
  {
    History.AddIdempotent(sh.history, line);
  }

  // ---------------------------------------------------------------------
  // Built-ins that change the shell's state

  /** After a built-in: keep looping with a new state, or end the process
      with an exit code. */
  datatype Flow = Continue(shell: Shell) | Terminate(code: int)

  /** `exit`: with an argument the process ends at once with the code read
      from it (`code`, as `atoi` parsed it); without one the running flag is
      cleared and the loop ends normally. */
  function RunExit(sh: Shell, args: seq<string>, code: int): (r: Flow)
    ensures r.Terminate? <==> |args| > 1
    ensures r.Terminate? ==> r.code == code
    ensures r.Continue? ==> !r.shell.running && r.shell.cwd == sh.cwd && r.shell.history == sh.history
  {
    if |args| > 1 then Terminate(code) else Continue(sh.(running := false))
  }

  /** What the operating system answers to a directory change: refused, or
      done together with the new current directory if it could be read. */
  datatype ChdirReply = Refused | Entered(cwd: Option<string>)

  /** `cd`: change to the target directory; on success re-read and cache the
      current directory, on failure keep the cached one. */
  function RunCd(sh: Shell, args: seq<string>, home: Option<string>, chdir: string -> ChdirReply): (r: Shell)
    requires |args| >= 1
    ensures r.running == sh.running && r.history == sh.history
    ensures chdir(Builtins.CdTarget(args, home)) == Entered(Some(r.cwd)) || r.cwd == sh.cwd
    ensures chdir(Builtins.CdTarget(args, home)).Refused? ==> r == sh
    ensures chdir(Builtins.CdTarget(args, home)).Entered? && chdir(Builtins.CdTarget(args, home)).cwd.Some? ==>
      r.cwd == chdir(Builtins.CdTarget(args, home)).cwd.value
  {
    match chdir(Builtins.CdTarget(args, home))
    case Entered(Some(dir)) => sh.(cwd := dir)
    case Entered(None) => sh
    case Refused => sh
  }

  /** Bare `cd` goes where `cd $HOME` goes, or where `cd /` goes when
      HOME is unset; arguments after the first are ignored. */
  lemma CdArguments(sh: Shell, dir: string, rest: seq<string>, home: Option<string>, chdir: string -> ChdirReply)
    ensures RunCd(sh, ["cd"], Some(dir), chdir) == RunCd(sh, ["cd", dir], home, chdir)
    ensures RunCd(sh, ["cd"], None, chdir) == RunCd(sh, ["cd", "/"], home, chdir)
    ensures RunCd(sh, ["cd", dir] + rest, home, chdir) == RunCd(sh, ["cd", dir], home, chdir)
  {
    assert (["cd", dir] + rest)[1] == dir;
  }

  /** Changing to a directory the system enters and reports caches it, and
      a second change to the same directory leaves the state as it is. */
  lemma CdTwice(sh: Shell, dir: string, home: Option<string>, chdir: string -> ChdirReply)
    requires chdir(dir) == Entered(Some(dir))
    ensures RunCd(sh, ["cd", dir], home, chdir) == sh.(cwd := dir)
    ensures RunCd(RunCd(sh, ["cd", dir], home, chdir), ["cd", dir], home, chdir) == RunCd(sh, ["cd", dir], home, chdir)
  {
  }

  /** Bare `cd` with HOME set to /tmp caches /tmp when the change succeeds;
      a refused change keeps the cached directory. */
  lemma CdExamples(sh: Shell, chdir: string -> ChdirReply)
    requires chdir("/tmp") == Entered(Some("/tmp"))
    requires chdir("/nonexistent-path") == Refused
    ensures RunCd(sh, ["cd"], Some("/tmp"), chdir).cwd == "/tmp"
    ensures RunCd(sh, ["cd", "/nonexistent-path"], Some("/tmp"), chdir) == sh
  {
  }

  /** `history [n]`: the listing, windowed by the count `atoi` read from
      the argument when there is one. */
  function RunHistory(sh: Shell, args: seq<string>, count: int): (r: seq<History.Entry>)
    ensures |args| <= 1 ==> r == History.Listing(sh.history, None)
    ensures |r| <= |sh.history|
    ensures r == History.Listing(sh.history, None)[|sh.history| - |r|..]
    ensures |r| < |sh.history| <==> (|args| > 1 && 0 < count < |sh.history|)
    ensures |args| > 1 && 0 < count < |sh.history| ==> |r| == count
  {
    var n := if |args| > 1 then Some(count) else None;
    History.ListingIsSuffix(sh.history, n);
    History.Listing(sh.history, n)
  }

  /** Any line that tokenizes to the single word `exit` is recorded,
      dispatches the built-in, and ends the loop with nothing else changed. */
  lemma ExitLineStops(sh: Shell, line: string, code: int)
    requires Lexer.Parse(line) == ["exit"]
    ensures Execute(sh, line).action == Builtin(Builtins.Exit, ["exit"])
    ensures RunExit(Execute(sh, line).shell, ["exit"], code) ==
      Continue(sh.(history := History.Add(sh.history, line), running := false))
  {
    assert Builtins.Lookup("exit") == Some(Builtins.Exit);
  }

  /** A line whose first word is `exit` and which has an argument is
      recorded, dispatches the built-in, and ends the process with the code
      read from the argument. */
  lemma ExitWithCodeTerminates(sh: Shell, line: string, code: int)
    requires |Lexer.Parse(line)| > 1 && Lexer.Parse(line)[0] == "exit"
    ensures Execute(sh, line).action == Builtin(Builtins.Exit, Lexer.Parse(line))
    ensures Execute(sh, line).shell.history == History.Add(sh.history, line)
    ensures RunExit(Execute(sh, line).shell, Execute(sh, line).action.args, code) == Terminate(code)
  {
    assert Builtins.Lookup("exit") == Some(Builtins.Exit);
  }

  /** Typing `exit` itself stops the loop. */
  lemma ExampleExit(sh: Shell, code: int)
    ensures RunExit(Execute(sh, "exit").shell, ["exit"], code) ==
      Continue(sh.(history := History.Add(sh.history, "exit"), running := false))
  {
    assert Lexer.Join(["exit"]) == "exit";
    assert Lexer.PlainWord("exit");
    Lexer.ParseJoin(["exit"]);
    ExitLineStops(sh, "exit", code);
  }
}

=== FILE: lexer.dfy ===
/** The command-line tokenizer of the shell (`Shell::parseCommand`).

    The tokenizer scans the line once, left to right, keeping two flags
    (inside quotes, escape the next character) and one accumulator for the
    token being built. `Scan` gives the state after a prefix of the line has
    been read, which is exactly the state the source's loop holds after that
    many iterations.

    Two projections of that scan serve as independent references:
    `ModeAfter` tracks only the two flags, and `KeptChars` lists the
    characters that end up in some token. The main theorems say that the
    tokens are non-empty, that concatenated they are exactly `KeptChars`,
    and that a quote or an unquoted blank is kept only when it was escaped
    (or, for a blank, quoted). */
module Lexer {

  /** The characters `std::isspace` accepts in the C locale. */
  predicate IsSpace(c: char) {
    c == ' ' || c == '\t' || c == '\n' || c == '\U{000B}' || c == '\U{000C}' || c == '\r'
  }

  /** Both quote characters toggle the same flag; they are not told apart. */
  predicate IsQuote(c: char) {
    c == '"' || c == '\''
  }

  const Backslash: char := '\\'

  /** The scanner state: the two flags, the token being built and the
      tokens emitted so far. */
  datatype Lex = Lex(inQuotes: bool, escapeNext: bool, acc: string, tokens: seq<string>)

  const Start: Lex := Lex(false, false, [], [])

  /** One iteration of the scanning loop. The flags move as `Advance`
      says; a character `Copies` accepts is appended to the token being
      built; a blank read outside quotes and escapes ends a non-empty token;
      nothing else changes the text. */
  function Step(st: Lex, c: char): (r: Lex)
    ensures Mode(r.inQuotes, r.escapeNext) == Advance(Mode(st.inQuotes, st.escapeNext), c)
    ensures Copies(Mode(st.inQuotes, st.escapeNext), c) ==> r.tokens == st.tokens && r.acc == st.acc + [c]
    ensures r.tokens != st.tokens <==> (IsSpace(c) && !st.inQuotes && !st.escapeNext && st.acc != [])
    ensures r.tokens != st.tokens ==> r.tokens == st.tokens + [st.acc] && r.acc == []
    ensures !Copies(Mode(st.inQuotes, st.escapeNext), c) && r.tokens == st.tokens ==> r.acc == st.acc
  {
    if st.escapeNext then
      st.(acc := st.acc + [c], escapeNext := false)
    else if c == Backslash then
      st.(escapeNext := true)
    else if IsQuote(c) then
      st.(inQuotes := !st.inQuotes)
    else if IsSpace(c) && !st.inQuotes then
      if st.acc != [] then st.(tokens := st.tokens + [st.acc], acc := []) else st
    else
      st.(acc := st.acc + [c])
  }

  /** The state after reading all of `s`, starting from `st`. */
  function Scan(st: Lex, s: string): Lex
    decreases |s|
  {
    if s == [] then st else Step(Scan(st, s[..|s| - 1]), s[|s| - 1])
  }

  /** After the loop: a non-empty accumulator becomes the last token. The
      emitted tokens stay in front, at most one token is added, and the
      text they spell is the emitted text followed by the accumulator. */
  function Finish(st: Lex): (r: seq<string>)
    ensures |st.tokens| <= |r| <= |st.tokens| + 1 && r[..|st.tokens|] == st.tokens
    ensures Concat(r) == Concat(st.tokens) + st.acc
    ensures NoEmptyToken(st.tokens) ==> NoEmptyToken(r)
  {
    if st.acc != [] then
      ConcatSnoc(st.tokens, st.acc);
      st.tokens + [st.acc]
    else
      assert Concat(st.tokens) + st.acc == Concat(st.tokens);
      st.tokens
  }

  /** The tokens of a command line: none is empty, and concatenated they
      are exactly the characters the scan copies (`KeptChars`). */
  function Parse(line: string): (r: seq<string>)
    ensures NoEmptyToken(r)
    ensures Concat(r) == KeptChars(line)
  {
    ScanInvariant(line);
    Finish(Scan(Start, line))
  }

  // ---------------------------------------------------------------------
  // Reference projections of the scan

  /** The two flags alone. */
  datatype Mode = Mode(inQuotes: bool, escapeNext: bool)

  /** How one character changes the flags. */
  function Advance(m: Mode, c: char): Mode {
    if m.escapeNext then Mode(m.inQuotes, false)
    else if c == Backslash then Mode(m.inQuotes, true)
    else if IsQuote(c) then Mode(!m.inQuotes, false)
    else m
  }

  /** The flags after reading `s` from the start of a line. */
  function ModeAfter(s: string): Mode
    decreases |s|
  {
    if s == [] then Mode(false, false) else Advance(ModeAfter(s[..|s| - 1]), s[|s| - 1])
  }

  /** Whether `c`, read under flags `m`, is copied into a token: escaped
      characters always are; otherwise a backslash, a quote or a blank
      outside quotes is not. */
  predicate Copies(m: Mode, c: char) {
    m.escapeNext || !(c == Backslash || IsQuote(c) || (IsSpace(c) && !m.inQuotes))
  }

  /** The characters of `s` that are copied into some token, in order. */
  function KeptChars(s: string): string
    decreases |s|
  {
    if s == [] then []
    else
      var prefix := s[..|s| - 1];
      KeptChars(prefix) + (if Copies(ModeAfter(prefix), s[|s| - 1]) then [s[|s| - 1]] else [])
  }

  /** The character at index `i` is read while the escape flag is set. */
  predicate EscapedAt(line: string, i: nat)
    requires i <= |line|
  {
    ModeAfter(line[..i]).escapeNext
  }

  /** The character at index `i` is read inside quotes. */
  predicate QuotedAt(line: string, i: nat)
    requires i <= |line|
  {
    ModeAfter(line[..i]).inQuotes
  }

  /** The character at index `i` is copied into a token. */
  predicate CopiedAt(line: string, i: nat)
    requires i < |line|
  {
    Copies(ModeAfter(line[..i]), line[i])
  }

  /** All tokens glued together. */
  function Concat(ts: seq<string>): string
    decreases |ts|
  {
    if ts == [] then [] else Concat(ts[..|ts| - 1]) + ts[|ts| - 1]
  }

  predicate NoEmptyToken(ts: seq<string>) {
    forall k :: 0 <= k < |ts| ==> ts[k] != []
  }

  // ---------------------------------------------------------------------
  // The scan agrees with its projections

  /** The flags of the scanner are those computed by `ModeAfter`. */
  lemma {:induction false} ScanMode(s: string)
    ensures Scan(Start, s).inQuotes == ModeAfter(s).inQuotes
    ensures Scan(Start, s).escapeNext == ModeAfter(s).escapeNext
    decreases |s|
  {
    if s != [] {
      ScanMode(s[..|s| - 1]);
    }
  }

  /** One step keeps the invariant below: the character joins the copied
      characters exactly when `Copies` says so. */
  lemma StepKeeps(st: Lex, c: char, kept: string)
    requires Concat(st.tokens) + st.acc == kept
    requires NoEmptyToken(st.tokens)
    ensures Concat(Step(st, c).tokens) + Step(st, c).acc ==
      kept + (if Copies(Mode(st.inQuotes, st.escapeNext), c) then [c] else [])
    ensures NoEmptyToken(Step(st, c).tokens)
  {
    var copied := Copies(Mode(st.inQuotes, st.escapeNext), c);
    if st.escapeNext || !(c == Backslash || IsQuote(c) || (IsSpace(c) && !st.inQuotes)) {
      assert copied && Step(st, c) == st.(acc := st.acc + [c], escapeNext := false);
      assert Concat(st.tokens) + (st.acc + [c]) == kept + [c];
    } else if c == Backslash || IsQuote(c) || st.acc == [] {
      assert !copied && Step(st, c).tokens == st.tokens && Step(st, c).acc == st.acc;
      assert kept + [] == kept;
    } else {
      assert !copied && Step(st, c) == st.(tokens := st.tokens + [st.acc], acc := []);
      ConcatSnoc(st.tokens, st.acc);
    }
  }

  /** One more token appends its text to the concatenation. */
  lemma ConcatSnoc(ts: seq<string>, t: string)
    ensures Concat(ts + [t]) == Concat(ts) + t
  {
    assert (ts + [t])[..|ts|] == ts;
  }

  /** The emitted tokens followed by the accumulator spell out exactly the
      copied characters, and no emitted token is empty. */
  lemma {:induction false} ScanInvariant(s: string)
    ensures Concat(Scan(Start, s).tokens) + Scan(Start, s).acc == KeptChars(s)
    ensures NoEmptyToken(Scan(Start, s).tokens)
    decreases |s|
  {
    if s != [] {
      var prefix := s[..|s| - 1];
      ScanInvariant(prefix);
      ScanMode(prefix);
      StepKeeps(Scan(Start, prefix), s[|s| - 1], KeptChars(prefix));
    }
  }

  /** A line yields no token exactly when none of its characters is copied. */
  lemma ParseEmptyIff(line: string)
    ensures Parse(line) == [] <==> KeptChars(line) == []
  {
    var ts := Parse(line);
    if ts != [] {
      assert ts[|ts| - 1] != [];
      assert |Concat(ts)| >= |ts[|ts| - 1]|;
    }
  }

  /** Reading only blanks from the start of a line leaves both flags off and
      copies nothing. */
  lemma {:induction false} BlanksCopyNothing(s: string)
    requires forall k :: 0 <= k < |s| ==> IsSpace(s[k])
    ensures ModeAfter(s) == Mode(false, false)
    ensures KeptChars(s) == []
    decreases |s|
  {
    if s != [] {
      BlanksCopyNothing(s[..|s| - 1]);
    }
  }

  /** An empty line, or one made only of blanks, has no tokens. */
  lemma BlankLineHasNoTokens(line: string)
    requires forall k :: 0 <= k < |line| ==> IsSpace(line[k])
    ensures Parse(line) == []
  {
    BlanksCopyNothing(line);
    ParseEmptyIff(line);
  }

  // ---------------------------------------------------------------------
  // Where the characters of a token come from

  /** Every copied character occurs in the line at an index where it was
      copied. */
  lemma {:induction false} KeptCharsOrigin(s: string, c: char)
    requires c in KeptChars(s)
    ensures exists i :: 0 <= i < |s| && s[i] == c && CopiedAt(s, i)
    decreases |s|
  {
    var prefix := s[..|s| - 1];
    if c in KeptChars(prefix) {
      KeptCharsOrigin(prefix, c);
      var i :| 0 <= i < |prefix| && prefix[i] == c && CopiedAt(prefix, i);
      assert prefix[..i] == s[..i];
      assert CopiedAt(s, i);
    } else {
      assert s[|s| - 1] == c && CopiedAt(s, |s| - 1);
    }
  }

  /** A character of a member of `ts` occurs in their concatenation. */
  lemma {:induction false} ConcatHas(ts: seq<string>, t: string, c: char)
    requires t in ts && c in t
    ensures c in Concat(ts)
    decreases |ts|
  {
    if t != ts[|ts| - 1] {
      assert t in ts[..|ts| - 1];
      ConcatHas(ts[..|ts| - 1], t, c);
    }
  }

  /** The escape flag is set only by a backslash read while it was clear. */
  lemma EscapeFollowsBackslash(s: string)
    requires ModeAfter(s).escapeNext
    ensures |s| > 0 && s[|s| - 1] == Backslash && !ModeAfter(s[..|s| - 1]).escapeNext
  {
  }

  /** A character of a token was copied at some index of the line. */
  lemma TokenCharOrigin(line: string, t: string, c: char)
    requires t in Parse(line) && c in t
    ensures exists i :: 0 <= i < |line| && line[i] == c && CopiedAt(line, i)
  {
    ConcatHas(Parse(line), t, c);
    KeptCharsOrigin(line, c);
  }

  /** A copied quote or backslash was escaped by the backslash before it. */
  lemma KeptSpecialIsEscaped(line: string, c: char)
    requires c in KeptChars(line) && (IsQuote(c) || c == Backslash)
    ensures exists i :: 0 < i < |line| && line[i] == c && line[i - 1] == Backslash && EscapedAt(line, i)
  {
    KeptCharsOrigin(line, c);
    var i :| 0 <= i < |line| && line[i] == c && CopiedAt(line, i);
    var before := line[..i];
    assert Copies(ModeAfter(before), c);
    assert ModeAfter(before).escapeNext;
    EscapeFollowsBackslash(before);
    assert before[i - 1] == line[i - 1];
    assert EscapedAt(line, i);
  }

  /** A quote character reaches a token only when a backslash escaped it. */
  lemma QuoteInTokenIsEscaped(line: string, t: string, c: char)
    requires t in Parse(line) && c in t && IsQuote(c)
    ensures exists i :: 0 < i < |line| && line[i] == c && line[i - 1] == Backslash && EscapedAt(line, i)
  {
    ConcatHas(Parse(line), t, c);
    KeptSpecialIsEscaped(line, c);
  }

  /** Likewise for a backslash: only an escaped one is kept. */
  lemma BackslashInTokenIsEscaped(line: string, t: string)
    requires t in Parse(line) && Backslash in t
    ensures exists i :: 0 < i < |line| && line[i] == Backslash && line[i - 1] == Backslash && EscapedAt(line, i)
  {
    ConcatHas(Parse(line), t, Backslash);
    KeptSpecialIsEscaped(line, Backslash);
  }

  /** A copied blank was read inside quotes or escaped. */
  lemma KeptSpaceIsQuotedOrEscaped(line: string, c: char)
    requires c in KeptChars(line) && IsSpace(c)
    ensures exists i :: (0 <= i < |line| && line[i] == c
      && (QuotedAt(line, i) || (0 < i && line[i - 1] == Backslash && EscapedAt(line, i))))
  {
    KeptCharsOrigin(line, c);
    var i :| 0 <= i < |line| && line[i] == c && CopiedAt(line, i);
    if EscapedAt(line, i) {
      EscapeFollowsBackslash(line[..i]);
      assert line[..i][i - 1] == line[i - 1];
    }
  }

  /** A blank reaches a token only when read inside quotes or escaped. */
  lemma SpaceInTokenIsQuotedOrEscaped(line: string, t: string, c: char)
    requires t in Parse(line) && c in t && IsSpace(c)
    ensures exists i :: (0 <= i < |line| && line[i] == c
      && (QuotedAt(line, i) || (0 < i && line[i - 1] == Backslash && EscapedAt(line, i))))
  {
    ConcatHas(Parse(line), t, c);
    KeptSpaceIsQuotedOrEscaped(line, c);
    var i: nat :| i < |line| && line[i] == c
      && (QuotedAt(line, i) || (0 < i && line[i - 1] == Backslash && EscapedAt(line, i)));
    assert 0 <= i < |line| && line[i] == c;
    assert QuotedAt(line, i) || (0 < i && line[i - 1] == Backslash && EscapedAt(line, i));
  }

  /** On a line without backslashes, copied characters are no quote or
      backslash; with no quote either, they are no blank. */
  lemma KeptOnPlainLine(line: string, c: char)
    requires Backslash !in line
    requires c in KeptChars(line)
    ensures !IsQuote(c) && c != Backslash
    ensures (forall k :: 0 <= k < |line| ==> !IsQuote(line[k])) ==> !IsSpace(c)
  {
    if IsQuote(c) || c == Backslash {
      KeptSpecialIsEscaped(line, c);
    } else if IsSpace(c) && forall k :: 0 <= k < |line| ==> !IsQuote(line[k]) {
      KeptCharsOrigin(line, c);
      var i :| 0 <= i < |line| && line[i] == c && CopiedAt(line, i);
      NoQuoteNoFlags(line[..i]);
    }
  }

  /** Without a backslash on the line, no token holds a quote; with neither
      backslash nor quote, no token holds a blank either. */
  lemma PlainLineTokens(line: string, t: string, c: char)
    requires Backslash !in line
    requires t in Parse(line) && c in t
    ensures !IsQuote(c) && c != Backslash
    ensures (forall k :: 0 <= k < |line| ==> !IsQuote(line[k])) ==> !IsSpace(c)
  {
    ConcatHas(Parse(line), t, c);
    KeptOnPlainLine(line, c);
  }

  /** Without backslashes and quotes the flags never switch on. */
  lemma {:induction false} NoQuoteNoFlags(s: string)
    requires forall k :: 0 <= k < |s| ==> !IsQuote(s[k]) && s[k] != Backslash
    ensures ModeAfter(s) == Mode(false, false)
    decreases |s|
  {
    if s != [] {
      NoQuoteNoFlags(s[..|s| - 1]);
    }
  }

  // ---------------------------------------------------------------------
  // Escapes and unterminated constructs

  /** Scanning a concatenation is scanning its parts one after the other. */
  lemma {:induction false} ScanAppend(st: Lex, a: string, b: string)
    ensures Scan(st, a + b) == Scan(Scan(st, a), b)
    decreases |b|
  {
    if b == [] {
      assert a + b == a;
    } else {
      assert (a + b)[..|a + b| - 1] == a + b[..|b| - 1];
      ScanAppend(st, a, b[..|b| - 1]);
    }
  }

  /** Emitted tokens play no part in the rest of the scan: scanning from a
      state is scanning from the same state with no tokens, behind them. */
  lemma {:induction false} ScanTokens(st: Lex, s: string)
    ensures Scan(st, s) == Scan(st.(tokens := []), s).(tokens := st.tokens + Scan(st.(tokens := []), s).tokens)
    decreases |s|
  {
    if s != [] {
      var prefix := s[..|s| - 1];
      ScanTokens(st, prefix);
      var bare := Scan(st.(tokens := []), prefix);
      StepTokens(bare, st.tokens, s[|s| - 1]);
    }
  }

  /** `ScanTokens` for one step. */
  lemma StepTokens(st: Lex, ts: seq<string>, c: char)
    ensures Step(st.(tokens := ts + st.tokens), c) == Step(st, c).(tokens := ts + Step(st, c).tokens)
  {
    assert ts + st.tokens + [st.acc] == ts + (st.tokens + [st.acc]);
  }

  /** `ScanTokens` for the final flush. */
  lemma FinishTokens(st: Lex, ts: seq<string>)
    ensures Finish(st.(tokens := ts + st.tokens)) == ts + Finish(st)
  {
    assert ts + st.tokens + [st.acc] == ts + (st.tokens + [st.acc]);
  }

  /** A blank read outside quotes and escapes is a token boundary: the
      tokens of the line are the tokens before it followed by the tokens
      after it. */
  lemma ParseSplit(a: string, c: char, b: string)
    requires IsSpace(c) && ModeAfter(a) == Mode(false, false)
    ensures Parse(a + [c] + b) == Parse(a) + Parse(b)
  {
    var st := Scan(Start, a);
    ScanMode(a);
    ScanSnoc(Start, a, c);
    BlankFlushes(st, c);
    var mid := Lex(false, false, [], Finish(st));
    assert Scan(Start, a + [c]) == mid;
    ScanAppend(Start, a + [c], b);
    assert mid.(tokens := []) == Start;
    ScanTokens(mid, b);
    var rest := Scan(Start, b);
    assert Scan(Start, a + [c] + b) == rest.(tokens := Finish(st) + rest.tokens);
    FinishTokens(rest, Finish(st));
  }

  /** No character of `line` is a token boundary: no blank is read with
      both flags off. */
  predicate NoBoundary(line: string) {
    forall i :: 0 <= i < |line| ==> !(IsSpace(line[i]) && ModeAfter(line[..i]) == Mode(false, false))
  }

  /** Without a boundary the scan never emits a token. */
  lemma {:induction false} NoBoundaryNoTokens(s: string)
    requires NoBoundary(s)
    ensures Scan(Start, s).tokens == []
    decreases |s|
  {
    if s != [] {
      var prefix := s[..|s| - 1];
      forall i | 0 <= i < |prefix|
        ensures !(IsSpace(prefix[i]) && ModeAfter(prefix[..i]) == Mode(false, false))
      {
        assert prefix[i] == s[i] && prefix[..i] == s[..i];
      }
      NoBoundaryNoTokens(prefix);
      ScanMode(prefix);
      assert prefix == s[..|s| - 1];
    }
  }

  /** Tokens break nowhere but at a boundary: a line without one is a
      single token holding every copied character, or no token when
      nothing is copied. With `ParseSplit` this fixes every token. */
  lemma NoBoundaryOneToken(line: string)
    requires NoBoundary(line)
    ensures Parse(line) == if KeptChars(line) == [] then [] else [KeptChars(line)]
  {
    var st := Scan(Start, line);
    NoBoundaryNoTokens(line);
    ScanInvariant(line);
    assert Concat(st.tokens) == [];
    assert st.acc == KeptChars(line);
    assert st.tokens + [st.acc] == [st.acc];
  }

  /** The flags and copied characters after each prefix of `a" "`. */
  lemma QuotedBlankPrefixes()
    ensures ModeAfter("a\"") == Mode(true, false) && KeptChars("a\"") == "a"
    ensures ModeAfter("a\" \"") == Mode(false, false) && KeptChars("a\" \"") == "a "
  {
    assert "a"[..0] == [] && "a\""[..1] == "a" && "a\" "[..2] == "a\"";
    assert "a\" \""[..3] == "a\" ";
    assert ModeAfter("a") == Mode(false, false) && KeptChars("a") == "a";
    assert ModeAfter("a\" ") == Mode(true, false) && KeptChars("a\" ") == "a ";
  }

  /** `a" "b` has no boundary, since its blank is read inside quotes, so
      it is the single token `a b`. */
  lemma ExampleQuotedBlank()
    ensures Parse("a\" \"b") == ["a b"]
  {
    var line := "a\" \"b";
    QuotedBlankPrefixes();
    assert line[..4] == "a\" \"";
    assert KeptChars(line) == "a b";
    forall i | 0 <= i < |line|
      ensures !(IsSpace(line[i]) && ModeAfter(line[..i]) == Mode(false, false))
    {
      if i == 2 {
        assert line[..2] == "a\"";
      }
    }
    NoBoundaryOneToken(line);
  }

  /** A blank read with both flags off flushes the accumulator: what
      remains are the tokens `Finish` would give, and an empty accumulator. */
  lemma BlankFlushes(st: Lex, c: char)
    requires IsSpace(c) && !st.inQuotes && !st.escapeNext
    ensures Step(st, c) == Lex(false, false, [], Finish(st))
  {
  }

  /** A backslash followed by any character adds that character, verbatim,
      to the current token, and changes nothing else. */
  lemma EscapeCopiesVerbatim(prefix: string, c: char)
    requires !ModeAfter(prefix).escapeNext
    ensures Scan(Start, prefix + [Backslash, c]) ==
      Scan(Start, prefix).(acc := Scan(Start, prefix).acc + [c])
  {
    ScanMode(prefix);
    ScanAppend(Start, prefix, [Backslash, c]);
    var st := Scan(Start, prefix);
    assert [Backslash, c][..1] == [Backslash];
    assert [Backslash][..0] == [];
    assert Scan(st, [Backslash]) == Step(st, Backslash);
    assert Scan(st, [Backslash, c]) == Step(Scan(st, [Backslash]), c);
  }

  /** A lone backslash at the end of a line contributes nothing. */
  lemma TrailingBackslashIgnored(line: string)
    requires !ModeAfter(line).escapeNext
    ensures Parse(line + [Backslash]) == Parse(line)
  {
    ScanMode(line);
    assert (line + [Backslash])[..|line|] == line;
  }

  /** A quote at the end of a line (closing or left unterminated) changes
      no token. */
  lemma TrailingQuoteIgnored(line: string, q: char)
    requires IsQuote(q) && !ModeAfter(line).escapeNext
    ensures Parse(line + [q]) == Parse(line)
  {
    ScanMode(line);
    assert (line + [q])[..|line|] == line;
  }

  // ---------------------------------------------------------------------
  // The scanning loop itself

  /** The tokenizer as the source writes it: one pass with two flags and an
      accumulator. */
  method ParseCommand(input: string) returns (tokens: seq<string>)
    ensures tokens == Parse(input)
    ensures NoEmptyToken(tokens)
    ensures Concat(tokens) == KeptChars(input)
  {
    tokens := [];
    var current := "";
    var inQuotes := false;
    var escapeNext := false;
    for i := 0 to |input|
      invariant Scan(Start, input[..i]) == Lex(inQuotes, escapeNext, current, tokens)
    {
      var c := input[i];
      assert input[..i + 1][..i] == input[..i];
      if escapeNext {
        current := current + [c];
        escapeNext := false;
      } else if c == Backslash {
        escapeNext := true;
      } else if IsQuote(c) {
        if inQuotes {
          inQuotes := false;
        } else {
          inQuotes := true;
        }
      } else if IsSpace(c) && !inQuotes {
        if current != [] {
          tokens := tokens + [current];
          current := [];
        }
      } else {
        current := current + [c];
      }
    }
    assert input[..|input|] == input;
    if current != [] {
      tokens := tokens + [current];
    }
  }

  // ---------------------------------------------------------------------
  // Joining words and parsing them back

  /** A character the scanner copies as it stands when the escape flag is
      clear: no quote, no backslash and, outside quotes, no blank. */
  predicate Kept(c: char, quoted: bool) {
    !IsQuote(c) && c != Backslash && (quoted || !IsSpace(c))
  }

  /** A non-empty word of ordinary characters. */
  predicate PlainWord(w: string) {
    w != [] && forall k :: 0 <= k < |w| ==> Kept(w[k], false)
  }

  /** `Kept` for every character, stated along the scan's own recursion;
      the recursive form keeps the solver from instantiating a quantifier
      at every step of a scan. */
  predicate Inert(w: string, quoted: bool)
    decreases |w|
  {
    w == [] || (Inert(w[..|w| - 1], quoted) && Kept(w[|w| - 1], quoted))
  }

  /** `PlainWord` for every word, stated along the join's own recursion,
      for the same reason as `Inert`. */
  predicate PlainWords(ws: seq<string>)
    decreases |ws|
  {
    ws == [] || (PlainWords(ws[..|ws| - 1]) && ws[|ws| - 1] != [] && Inert(ws[|ws| - 1], false))
  }

  /** Text whose every character is kept is inert. */
  lemma {:induction false} InertOf(w: string, quoted: bool)
    requires forall k :: 0 <= k < |w| ==> Kept(w[k], quoted)
    ensures Inert(w, quoted)
    decreases |w|
  {
    if w != [] {
      var init := w[..|w| - 1];
      assert forall k :: 0 <= k < |init| ==> init[k] == w[k];
      InertOf(init, quoted);
    }
  }

  /** A list whose every element is a plain word satisfies `PlainWords`. */
  lemma {:induction false} AllPlainWords(ws: seq<string>)
    requires forall k :: 0 <= k < |ws| ==> PlainWord(ws[k])
    ensures PlainWords(ws)
    decreases |ws|
  {
    if ws != [] {
      var init := ws[..|ws| - 1];
      assert forall k :: 0 <= k < |init| ==> init[k] == ws[k];
      AllPlainWords(init);
      InertOf(ws[|ws| - 1], false);
    }
  }

  /** The words separated by single blanks. */
  function Join(ws: seq<string>): string
    decreases |ws|
  {
    if ws == [] then []
    else if |ws| == 1 then ws[0]
    else Join(ws[..|ws| - 1]) + " " + ws[|ws| - 1]
  }

  /** Inert text is appended to the current token as it stands. */
  lemma {:induction false} ScanText(st: Lex, w: string)
    requires !st.escapeNext
    requires Inert(w, st.inQuotes)
    ensures Scan(st, w) == st.(acc := st.acc + w)
    decreases |w|
  {
    if w != [] {
      var init := w[..|w| - 1];
      var c := w[|w| - 1];
      ScanText(st, init);
      StepCopies(st.(acc := st.acc + init), c);
      assert st.acc + init + [c] == st.acc + w;
    }
  }

  /** An ordinary character, or a blank inside quotes, read outside an
      escape is appended to the current token. */
  lemma StepCopies(st: Lex, c: char)
    requires !st.escapeNext && Kept(c, st.inQuotes)
    ensures Step(st, c) == st.(acc := st.acc + [c])
  {
  }

  /** Scanning one character is one step. */
  lemma ScanOne(st: Lex, c: char)
    ensures Scan(st, [c]) == Step(st, c)
  {
    assert [c][..0] == [];
  }

  /** Scanning one more character is one more step. */
  lemma ScanSnoc(st: Lex, s: string, c: char)
    ensures Scan(st, s + [c]) == Step(Scan(st, s), c)
  {
    assert (s + [c])[..|s|] == s;
  }

  /** Joined plain words, read from the start, leave every word but the last
      emitted and the last one in the accumulator. */
  lemma {:induction false} ScanJoin(ws: seq<string>)
    requires ws != [] && PlainWords(ws)
    ensures Scan(Start, Join(ws)) == Lex(false, false, ws[|ws| - 1], ws[..|ws| - 1])
    decreases |ws|
  {
    if |ws| == 1 {
      assert Join(ws) == ws[0];
      ScanText(Start, ws[0]);
    } else {
      var init := ws[..|ws| - 1];
      var last := ws[|ws| - 1];
      ScanJoin(init);
      var text := Join(init);
      var st := Lex(false, false, init[|init| - 1], init[..|init| - 1]);
      assert Scan(Start, text) == st;
      ScanSnoc(Start, text, ' ');
      BlankFlushes(st, ' ');
      assert init[..|init| - 1] + [init[|init| - 1]] == init;
      var st' := Lex(false, false, [], init);
      assert Scan(Start, text + [' ']) == st';
      assert Join(ws) == text + [' '] + last;
      ScanAppend(Start, text + [' '], last);
      ScanText(st', last);
    }
  }

  /** Joined plain words followed by a line end leave all words emitted. */
  lemma ScanJoinLine(ws: seq<string>)
    requires ws != [] && PlainWords(ws)
    ensures Scan(Start, Join(ws) + ['\n']) == Lex(false, false, [], ws)
  {
    assert ws[|ws| - 1] != [];
    ScanJoin(ws);
    EndPending(Join(ws), Lex(false, false, ws[|ws| - 1], ws[..|ws| - 1]), '\n');
    assert ws[..|ws| - 1] + [ws[|ws| - 1]] == ws;
  }

  /** A blank after a pending token outside quotes emits it. */
  lemma EndPending(text: string, st: Lex, c: char)
    requires Scan(Start, text) == st && !st.inQuotes && !st.escapeNext && st.acc != [] && IsSpace(c)
    ensures Scan(Start, text + [c]) == Lex(false, false, [], st.tokens + [st.acc])
  {
    ScanSnoc(Start, text, c);
    BlankFlushes(st, c);
  }

  /** A non-empty accumulator becomes the last token. */
  lemma FinishPending(st: Lex)
    requires st.acc != []
    ensures Finish(st) == st.tokens + [st.acc]
  {
  }

  /** Joined non-empty list of plain words parses back to itself. */
  lemma ParseJoinNonEmpty(ws: seq<string>)
    requires ws != [] && PlainWords(ws)
    ensures Parse(Join(ws)) == ws
  {
    var text := Join(ws);
    ScanJoin(ws);
    var st := Lex(false, false, ws[|ws| - 1], ws[..|ws| - 1]);
    assert Scan(Start, text) == st;
    FinishPending(st);
    assert ws[..|ws| - 1] + [ws[|ws| - 1]] == ws;
  }

  /** Parsing undoes joining: plain words separated by single blanks parse
      back to the same words. */
  lemma ParseJoin(ws: seq<string>)
    requires forall k :: 0 <= k < |ws| ==> PlainWord(ws[k])
    ensures Parse(Join(ws)) == ws
  {
    if ws == [] {
      assert Join(ws) == [];
    } else {
      AllPlainWords(ws);
      ParseJoinNonEmpty(ws);
    }
  }

  /** A lone line end holds no token. */
  lemma ParseLineEnd()
    ensures Parse(['\n']) == []
  {
    ScanOne(Start, '\n');
  }

  /** The same holds with a line end after the words, as `echo` prints them. */
  lemma ParseJoinLine(ws: seq<string>)
    requires forall k :: 0 <= k < |ws| ==> PlainWord(ws[k])
    ensures Parse(Join(ws) + ['\n']) == ws
  {
    if ws == [] {
      assert Join(ws) + ['\n'] == ['\n'];
      ParseLineEnd();
    } else {
      AllPlainWords(ws);
      ScanJoinLine(ws);
    }
  }

  /** A quote read outside an escape flips the quote flag and nothing else. */
  lemma StepQuote(st: Lex, c: char)
    requires IsQuote(c) && !st.escapeNext
    ensures Step(st, c) == st.(inQuotes := !st.inQuotes)
  {
  }

  /** A backslash read outside an escape only sets the escape flag. */
  lemma StepBackslash(st: Lex)
    requires !st.escapeNext
    ensures Step(st, Backslash) == st.(escapeNext := true)
  {
  }

  /** An escaped character is appended, whatever it is. */
  lemma StepEscaped(st: Lex, c: char)
    requires st.escapeNext
    ensures Step(st, c) == st.(acc := st.acc + [c], escapeNext := false)
  {
  }

  // ---------------------------------------------------------------------
  // Worked examples

  /** `echo hello world` splits at the blanks. */
  lemma ExampleWords()
    ensures Parse("echo hello world") == ["echo", "hello", "world"]
  {
    var ws := ["echo", "hello", "world"];
    assert Join(ws[..1]) == "echo";
    assert Join(ws[..2]) == "echo hello";
    assert Join(ws) == "echo hello world";
    ParseJoin(ws);
  }

  /** The state after `echo `: the command word emitted. */
  lemma ScanEchoBlank()
    ensures Scan(Start, "echo ") == Lex(false, false, [], ["echo"])
  {
    var st0 := Lex(false, false, "echo", []);
    InertOf("echo", false);
    ScanText(Start, "echo");
    assert [] + "echo" == "echo";
    assert "echo" + [' '] == "echo ";
    ScanSnoc(Start, "echo", ' ');
    BlankFlushes(st0, ' ');
  }

  /** The state after `echo "`: one token emitted, inside quotes. */
  lemma ScanEchoOpenQuote()
    ensures Scan(Start, "echo \"") == Lex(true, false, [], ["echo"])
  {
    ScanEchoBlank();
    var st1 := Lex(false, false, [], ["echo"]);
    assert "echo " + ['"'] == "echo \"";
    ScanSnoc(Start, "echo ", '"');
    StepQuote(st1, '"');
  }

  /** The state after `echo "hello world`: the quoted text accumulated. */
  lemma ScanEchoQuotedText()
    ensures Scan(Start, "echo \"hello world") == Lex(true, false, "hello world", ["echo"])
  {
    var st2 := Lex(true, false, [], ["echo"]);
    ScanEchoOpenQuote();
    assert "echo \"" + "hello world" == "echo \"hello world";
    ScanAppend(Start, "echo \"", "hello world");
    InertOf("hello world", true);
    ScanText(st2, "hello world");
    assert [] + "hello world" == "hello world";
  }

  /** The state after `echo "hello world" `: two tokens emitted. */
  lemma ScanEchoQuoted()
    ensures Scan(Start, "echo \"hello world\" ") == Lex(false, false, [], ["echo", "hello world"])
  {
    var st3 := Lex(true, false, "hello world", ["echo"]);
    ScanEchoQuotedText();
    ScanSnoc(Start, "echo \"hello world", '"');
    StepQuote(st3, '"');
    var st4 := Lex(false, false, "hello world", ["echo"]);
    ScanSnoc(Start, "echo \"hello world\"", ' ');
    BlankFlushes(st4, ' ');
    assert "echo \"hello world" + ['"'] == "echo \"hello world\"";
    assert "echo \"hello world\"" + [' '] == "echo \"hello world\" ";
  }

  /** The state after `echo "hello world" foo`: the last word pending. */
  lemma ScanEchoQuotedFoo()
    ensures Scan(Start, "echo \"hello world\" foo") == Lex(false, false, "foo", ["echo", "hello world"])
  {
    var st5 := Lex(false, false, [], ["echo", "hello world"]);
    ScanEchoQuoted();
    assert "echo \"hello world\" " + "foo" == "echo \"hello world\" foo";
    ScanAppend(Start, "echo \"hello world\" ", "foo");
    InertOf("foo", false);
    ScanText(st5, "foo");
    assert [] + "foo" == "foo";
  }

  /** A quoted blank stays inside its token and the quotes are dropped. */
  lemma ExampleQuoted()
    ensures Parse("echo \"hello world\" foo") == ["echo", "hello world", "foo"]
  {
    ScanEchoQuotedFoo();
    FinishPending(Lex(false, false, "foo", ["echo", "hello world"]));
  }

  /** The state after `echo a\`: the escape flag set. */
  lemma ScanEchoBackslash()
    ensures Scan(Start, "echo a\\") == Lex(false, true, "a", ["echo"])
  {
    var ws := ["echo", "a"];
    assert Join(ws[..1]) == "echo";
    assert Join(ws) == "echo a";
    AllPlainWords(ws);
    ScanJoin(ws);
    var st0 := Lex(false, false, "a", ["echo"]);
    assert Scan(Start, "echo a") == st0;
    ScanSnoc(Start, "echo a", Backslash);
    StepBackslash(st0);
    assert "echo a" + [Backslash] == "echo a\\";
  }

  /** The state after `echo a\ `: the escaped blank kept. */
  lemma ScanEchoEscapedBlank()
    ensures Scan(Start, "echo a\\ ") == Lex(false, false, "a ", ["echo"])
  {
    ScanEchoBackslash();
    var st1 := Lex(false, true, "a", ["echo"]);
    ScanSnoc(Start, "echo a\\", ' ');
    StepEscaped(st1, ' ');
    assert "echo a\\" + [' '] == "echo a\\ ";
  }

  /** An escaped blank is kept as a literal blank. */
  lemma ExampleEscaped()
    ensures Parse("echo a\\ b") == ["echo", "a b"]
  {
    ScanEchoEscapedBlank();
    var st2 := Lex(false, false, "a ", ["echo"]);
    ScanSnoc(Start, "echo a\\ ", 'b');
    StepCopies(st2, 'b');
    var st3 := Lex(false, false, "a b", ["echo"]);
    assert Scan(Start, "echo a\\ b") == st3 by {
      assert "echo a\\ " + ['b'] == "echo a\\ b";
    }
    FinishPending(st3);
  }

  /** Adjacent quotes inside a word produce nothing: `a""b` is one token. */
  lemma ExampleAdjacentQuotes()
    ensures Parse("a\"\"b") == ["ab"]
  {
    var st := Lex(false, false, "a", []);
    InertOf("a", false);
    ScanText(Start, "a");
    assert Scan(Start, "a") == st;
    ScanSnoc(Start, "a", '"');
    StepQuote(st, '"');
    ScanSnoc(Start, "a\"", '"');
    StepQuote(st.(inQuotes := true), '"');
    assert Scan(Start, "a\"\"") == st by {
      assert "a" + ['"'] == "a\"";
      assert "a\"" + ['"'] == "a\"\"";
    }
    ScanSnoc(Start, "a\"\"", 'b');
    ScanOne(st, 'b');
    InertOf("b", false);
    ScanText(st, "b");
    var st' := Lex(false, false, "ab", []);
    assert Scan(Start, "a\"\"b") == st' by {
      assert "a\"\"" + ['b'] == "a\"\"b";
    }
    FinishPending(st');
  }
}

=== FILE: wrappers.dfy ===
/** Optional values, used where the shell reads something that may be absent
    (a command-line argument, an environment variable). */
module Wrappers {

  datatype Option<+T> = None | Some(value: T) {

    /** Returns the value held in Some, or `default` for None. */
    function GetOr(default: T): T {
      match this
      case Some(v) => v
      case None => default
    }
  }
}
